=== FILE: README.md ===
# homework_bot, modelled in Dafny

The bot polls the Yandex Practicum homework-status API, turns the most recent homework
record into a one-line Russian message, and sends it to a Telegram chat when it differs
from the last message sent. Errors are sent as well, again only when their text differs
from the last error sent. This project models all of `homework.py` except its I/O:

- `py_value.dfy`, module `PyValue`: the values `json.loads` produces and the Python
  built-ins the bot applies to them (truthiness, `all`, `in`, `[key]`, `[0]`, `.get`,
  `str`/`repr`). Each built-in failure is an exception class together with the exact text
  `str(exception)` gives, because that text is what the bot sends to the chat.
- `homework.dfy`, module `Homework`: the status table `HOMEWORK_STATUSES`,
  `get_api_answer` with the HTTP layer reduced to a `Reply` value, `check_response`,
  `parse_status` and `check_tokens`.
- `supervisor.dfy`, module `Supervisor`: `main`. The startup guard is `Start`. One
  iteration of the `while True` loop is the pure transition `Step`, taking the state
  `(CURRENT_STATUS, MESSAGE_ERROR, current_timestamp)`, the clock reading and the reply.
  It yields the next state, the `from_date` it requested with, and the message it sent,
  if any. `Run` folds `Step` over a finite sequence of iterations.

Three behaviours of the code stand out, and the model proves each:

- A body that is not a JSON object fails at `response.get('current_date')` with an
  `AttributeError`. This happens before `check_response` runs, so that function's own
  "not a dictionary" error never reaches the chat (`NotADictNeverReported`).
- A record without `homework_name` or `status` raises a bare exception whose text is
  empty. `MESSAGE_ERROR` also starts empty, so such an error is not sent while no other
  error has been sent (`EmptyErrorTextIsSilent`, `FirstNamelessRecordIsSilent`).
- The next timestamp is taken from any decoded JSON object before it is validated. It
  therefore moves even when validation then fails. It becomes `None` when
  `current_date` is absent, and the next request then falls back to the clock
  (`TimestampTakenBeforeValidation`, `MissingDateFallsBackToNow`).

## Model

| member | source | states |
|---|---|---|
| PyValue.All | homework.py:104 | `all` of a sequence holds iff every element is truthy |
| PyValue.Contains | homework.py:90-92 | `'k' in x` is key membership for a dict, element membership for a list and substring membership for a string, and fails exactly for `None`, booleans and integers, with the `TypeError` `argument of type '…' is not iterable` |
| PyValue.GetItem | homework.py:94-95 | `x['k']` succeeds exactly for a dict holding the key, giving its last value; a dict without it raises `KeyError`; a list or string raises the `TypeError` about its indices, and `None`, a boolean or an integer the `TypeError` `'…' object is not subscriptable` |
| PyValue.GetFirst | homework.py:82-84 | `x[0]` raises `IndexError` exactly for an empty list or string, and gives the first element of a non-empty list or the first character of a non-empty string; a dict raises `KeyError` `0`, and `None`, a boolean or an integer the `TypeError` `'…' object is not subscriptable` |
| PyValue.DictGet | homework.py:118 | `.get` succeeds exactly on a dict, giving the last value under the key or `None`, and otherwise raises the `AttributeError` naming the type |
| PyValue.InTable | homework.py:96 | membership in the status table holds exactly for a string key that is in the table, and fails exactly for a list or dict, with the `TypeError` `unhashable type: '…'` |
| PyValue.Str | homework.py:97-99 | `str` gives a string itself, `None`, `True`/`False`, the decimal text of an integer, and for a list or dict its `repr` (`ReprList`, `ReprDict`) |
| PyValue.Repr | homework.py:97-99 | `repr` of a string opens and closes with the quote Python picks (double exactly when the text holds a single quote and no double quote), of a list is bracketed, of a dict braced, and is never shorter than two characters except for an integer; the escapes are stated by `ReprStringReadsBack`, the element texts by `ReprList` and `ReprDict` |
| PyValue.ReprPlainString | homework.py:97-99 | `repr` of a printable-ASCII string without a single quote or backslash is that string between single quotes |
| PyValue.ReprList | homework.py:97-99 | `repr` of a list is the `repr` of each element, in order, joined by `, ` inside brackets, and `str` of a list is its `repr` |
| PyValue.FirstOccurrences | homework.py:97-99 | the positions from a given one on that hold the first occurrence of their key, all of them and in increasing order |
| PyValue.FirstOccurrencesAreTheKeys | homework.py:97-99 | the first occurrences name every key of the dict, each exactly once |
| PyValue.ReprDict | homework.py:97-99 | `repr` of a dict is one `key: value` entry per distinct key, in first-occurrence order with the last value, joined by `, ` inside braces, and `str` of a dict is its `repr` |
| PyValue.ReprStringReadsBack | homework.py:97-99 | `repr` of a string is a Python literal: it opens and closes with the chosen quote, its body has only printable characters, no unescaped closing quote, and reads back as the string |
| PyValue.EscapeAllReadsBack | homework.py:97-99 | the escaped body of a string literal reads back as the string, never ends the literal early, and holds only printable characters |
| PyValue.IntToDecimal | homework.py:97 | the decimal text of an integer starts with `-` exactly for a negative one, has no leading zero except for `0` itself, and its digits read back as its absolute value |
| PyValue.DecimalRoundTrip | homework.py:97 | the decimal text that `str()` gives an integer status reads back as that integer |
| Homework.FromDate | homework.py:62-63 | `from_date` is the stored timestamp when that is truthy and the clock otherwise, so it is never false while the clock is non-zero |
| Homework.GetApiAnswer | homework.py:60-70 | the decoded body is returned exactly for a 200 reply with a parsable body; every other reply fails with `Ошибка запроса к API` |
| Homework.ApiFailuresIndistinguishable | homework.py:64-70 | a transport error, a non-200 code and an unparsable body all give the same failure |
| Homework.CheckResponse | homework.py:73-85 | not a dict gives the `TypeError` text; no `homeworks` gives the key-access text; an empty list or string gives `Нет выполненных работ`; a non-empty list or string gives `homeworks[0]`, its first element or character; any other failure of `homeworks[0]` passes through unchanged; a success is exactly `homeworks[0]` |
| Homework.CheckResponseOfResponse | homework.py:73-85 | for a response built from a record list, validation returns the first record unchanged, or the "no works" error when the list is empty |
| Homework.ParseStatus | homework.py:88-99 | for a record of any type: when `'homework_name' in homework` fails, that `TypeError` is the result; a missing name fails with an empty `KeyError` whether or not the status is present; a missing status fails with an empty `Exception`; a list or string holding both names fails on `homework['homework_name']` with the `TypeError` about its indices; for a dict, a list or dict status fails with `unhashable type: '…'`, an unknown status with `Пришел новый статус: ` plus its text, and a known one gives the status message with the table's verdict |
| Homework.ParseStatusOfRecord | homework.py:88-99 | a record `{homework_name, status}` gives the verdict message for a recognised status, and the new-status error naming any other status |
| Homework.MissingNameWins | homework.py:90-93 | a record lacking `homework_name` fails on the name, with an empty text, whether or not it has a status |
| Homework.StatusMessageNonEmpty | homework.py:99 | every status message is longer than its fixed prefix, so never empty |
| Homework.StatusMessageInjective | homework.py:30-34 | equal status messages come from the same name and the same recognised status; distinct statuses never give the same message |
| Homework.CheckTokens | homework.py:102-104 | the guard holds iff all three variables are set and non-empty |
| Supervisor.Start | homework.py:107-114 | without all tokens startup fails with the critical text and no loop state exists; otherwise the loop starts with both remembered texts empty and the clock as timestamp |
| Supervisor.Poll | homework.py:116-119 | the timestamp is replaced exactly when the API returns a dict, by its `current_date` or `None`; a failed request reports `Ошибка запроса к API`; a non-dict body reports an `AttributeError`; for a dict body the outcome is the validator's error, or `parse_status` of the record it returns; a message always starts with the status prefix and an error text never does |
| Supervisor.Step | homework.py:115-128 | a message is sent iff it differs from `CURRENT_STATUS` and becomes it, leaving `MESSAGE_ERROR` alone; an error text is sent iff it differs from `MESSAGE_ERROR` and becomes it, leaving `CURRENT_STATUS` alone |
| Supervisor.Run | homework.py:115-130 | a run issues one request per iteration, the first with the starting state's `from_date`, and sends at most as many messages as iterations |
| Supervisor.RunAppend | homework.py:115-130 | running two sequences of iterations one after the other is running their concatenation: requests and messages concatenate and the second starts from the state the first left |
| Supervisor.RunOneTick | homework.py:115-130 | a single iteration's run is that iteration's `Step`: one request and at most one message |
| Supervisor.RunExtend | homework.py:115-130 | each further iteration adds exactly one request and at most one message, both those of its own `Step` from the state the earlier iterations left |
| Supervisor.RepeatedReplyIsSilent | homework.py:120-128 | the same reply a second time in a row sends nothing and leaves the state unchanged |
| Supervisor.RepeatedReplyNotifiesAtMostOnce | homework.py:120-128 | two identical consecutive replies produce at most one notification |
| Supervisor.RunNeverRepeats | homework.py:113-128 | from a state that remembers the last text sent, no run sends the same text twice in a row |
| Supervisor.NotificationsNeverRepeat | homework.py:107-128 | from startup on, the bot never sends the same text twice in a row |
| Supervisor.TimestampTakenBeforeValidation | homework.py:117-119 | a dict body sets the next timestamp to its `current_date`, or `None`, whatever validation and interpretation then do |
| Supervisor.TimestampKeptWithoutDict | homework.py:117-118 | a failed request or a non-dict body leaves the timestamp unchanged |
| Supervisor.MissingDateFallsBackToNow | homework.py:62 | after a response without `current_date`, the next request starts from the clock |
| Supervisor.NotADictNeverReported | homework.py:75-76 | the validator's not-a-dictionary error never comes out of an iteration |
| Supervisor.NonDictBodyReportsMissingGet | homework.py:118 | a decoded body that is not a dict is reported by the `AttributeError` of `.get` |
| Supervisor.EmptyErrorTextIsSilent | homework.py:125-128 | an error with empty text is not sent while the remembered error text is empty |
| Supervisor.FirstNamelessRecordIsSilent | homework.py:90-91 | right after startup, a record without a name produces no notification |
| Supervisor.ReviewingScenario | homework.py:115-122 | a `reviewing` record for `hw1` dated 1000 sends its exact message, and the next request uses 1000 |
| Supervisor.EmptyListScenario | homework.py:81-84 | an empty homework list is sent as `Нет выполненных работ` when that was not the last error |
| Supervisor.ApprovedTwiceScenario | homework.py:120-122 | two identical approvals after startup produce exactly one notification |

## Left out

- The HTTP call is not modelled: `requests.get`, the endpoint, the OAuth header and JSON decoding. A `Reply` value stands for its result. `Step` reports the `from_date` it would send, but the reply is not tied to it.
- `telegram.Bot` and `send_message` are not modelled. A notification is the text `Step` returns. Delivery failures are swallowed by the code and change no state.
- Supervisor.NotificationsNeverRepeat speaks of send attempts, not of what the chat shows: a text whose delivery fails (Telegram refuses an empty one) is still remembered, so the chat can show the text before it twice in a row.
- Logging, `load_dotenv`, `os.getenv` and the clock are not modelled. The three variables are an `Env` value, and `time.time()` is the `now` parameter.
- `time.sleep(RETRY_TIME)` and the endless loop are not modelled. `Run` covers any finite number of iterations.
- The critical exit at startup is `Start` returning an error. Process termination is not modelled.
- JSON numbers with a fraction or exponent (Python floats) are not modelled.
- Strings holding a lone surrogate, which `json.loads` accepts (`"\ud800"`), are not modelled: a Dafny `char` is a Unicode scalar value and cannot hold one.
- PyValue.Repr: which escape it writes for a character that needs one (`\t` rather than `\x09`, lower-case hex digits) is stated only by its body; its contract and `ReprStringReadsBack` state that the text is a literal reading back as the string.
- PyValue.Repr treats every character above U+00FF as printable. CPython escapes some of them, for example U+2028, and that needs the Unicode database.
- PyValue.Contains, PyValue.GetItem, PyValue.GetFirst, PyValue.InTable and PyValue.DictGet use CPython 3.10 wording for built-in `TypeError` texts. Later versions word some of them differently.

=== FILE: homework.dfy ===
/** The functions of the bot's module: the status table, the API call with its
    transport abstracted, the response validator, the status interpreter and the
    token check. */
module Homework {
  import opened PyValue

  /** The verdict for each status the bot recognises. */
  const HomeworkStatuses: map<string, string> := map[
    "approved" := "Работа проверена: ревьюеру всё понравилось. Ура!",
    "reviewing" := "Работа взята на проверку ревьюером.",
    "rejected" := "Работа проверена: у ревьюера есть замечания."
  ]

  const ApiRequestFailed := "Ошибка запроса к API"
  const ResponseNotADict := "Ответ API не является словарем"
  const KeyAccessFailed := "Ошибка обращения по ключу"
  const NoHomeworks := "Нет выполненных работ"
  const NewStatusPrefix := "Пришел новый статус: "
  const StatusChangedPrefix := "Изменился статус проверки работы \""
  const StatusChangedInfix := "\". "

  const HttpOk := 200

  /** The message announcing that work `name` now has verdict `verdict`. */
  function StatusMessage(name: string, verdict: string): string {
    StatusChangedPrefix + name + StatusChangedInfix + verdict
  }

  /** Every status message, and nothing shorter, starts with the status prefix. */
  predicate IsStatusMessage(text: string) {
    StatusChangedPrefix <= text
  }

  /** Texts that differ from every status message in their first character, if any. */
  predicate UnlikeStatusMessage(text: string) {
    text == [] || text[0] != StatusChangedPrefix[0]
  }

  lemma UnlikeIsNotStatusMessage(text: string)
    requires UnlikeStatusMessage(text)
    ensures !IsStatusMessage(text)
  {
  }

  // ---------------------------------------------------------------------------
  // get_api_answer

  /** What the HTTP layer delivers for one GET: a transport failure, or a status code
      with a body that `response.json()` either decodes or rejects. */
  datatype Body = Unparsable | Parsed(json: Value)
  datatype Reply = TransportError | Response(statusCode: int, body: Body)

  /** The `from_date` query parameter: the given timestamp unless it is false
      (absent, `None`, `0`, ...), in which case the current time. */
  function FromDate(currentTimestamp: Value, now: int): (d: Value)
    ensures d == currentTimestamp || d == JInt(now)
    ensures Truthy(currentTimestamp) ==> d == currentTimestamp
    ensures !Truthy(currentTimestamp) ==> d == JInt(now)
    ensures now != 0 ==> Truthy(d)
  {
    if Truthy(currentTimestamp) then currentTimestamp else JInt(now)
  }

  /** The decoded body of a 200 reply; every failure, including a non-200 code that the
      function itself raises inside its `try`, leaves as one and the same exception. */
  function GetApiAnswer(reply: Reply): (r: Result<Value>)
    ensures r.Ok? <==> reply.Response? && reply.statusCode == HttpOk && reply.body.Parsed?
    ensures r.Ok? ==> r.value == reply.body.json
    ensures r.Err? ==> r.error == PyError(ImportantException, ApiRequestFailed)
    ensures r.Err? ==> UnlikeStatusMessage(r.error.text)
  {
    match reply
    case TransportError => Err(PyError(ImportantException, ApiRequestFailed))
    case Response(code, body) =>
      if code != HttpOk then Err(PyError(ImportantException, ApiRequestFailed))
      else match body
        case Unparsable => Err(PyError(ImportantException, ApiRequestFailed))
        case Parsed(json) => Ok(json)
  }

  /** Failures of the API call cannot be told apart by their text. */
  lemma ApiFailuresIndistinguishable(r1: Reply, r2: Reply)
    requires GetApiAnswer(r1).Err? && GetApiAnswer(r2).Err?
    ensures GetApiAnswer(r1) == GetApiAnswer(r2)
    ensures GetApiAnswer(r1).error.text == ApiRequestFailed
  {
  }

  // ---------------------------------------------------------------------------
  // check_response

  /** The most recent homework of a response, i.e. `response['homeworks'][0]`. */
  function CheckResponse(response: Value): (r: Result<Value>)
    ensures !response.JDict? <==> r == Err(PyError(TypeError, ResponseNotADict))
    ensures response.JDict? && !HasKey(response.members, "homeworks") <==>
              r == Err(PyError(ImportantException, KeyAccessFailed))
    ensures r == Err(PyError(ImportantException, NoHomeworks)) <==>
              response.JDict? && Lookup(response.members, "homeworks") in {Some(JList([])), Some(JStr(""))}
    ensures r.Ok? ==>
              response.JDict? && Lookup(response.members, "homeworks").Some? &&
              GetFirst(Lookup(response.members, "homeworks").value) == r
    ensures response.JDict? && HasKey(response.members, "homeworks") ==>
              var homeworks := Lookup(response.members, "homeworks").value;
              && (homeworks.JList? && homeworks.items != [] ==> r == Ok(homeworks.items[0]))
              && (GetFirst(homeworks).Ok? ==> r == GetFirst(homeworks))
              && (GetFirst(homeworks).Err? && GetFirst(homeworks).error.cls != IndexError ==> r == GetFirst(homeworks))
    ensures r.Err? ==> UnlikeStatusMessage(r.error.text)
  {
    if !response.JDict? then Err(PyError(TypeError, ResponseNotADict))
    else match Lookup(response.members, "homeworks")
      case None => Err(PyError(ImportantException, KeyAccessFailed))
      case Some(homeworks) =>
        match GetFirst(homeworks)
        case Err(e) =>
          if e.cls == IndexError then Err(PyError(ImportantException, NoHomeworks)) else Err(e)
        case Ok(homework) => Ok(homework)
  }

  /** An API response listing `homeworks`, most recent first, as of `date`. */
  function ResponseOf(homeworks: seq<Value>, date: Value): Value {
    JDict([Member("homeworks", JList(homeworks)), Member("current_date", date)])
  }

  /** The validator recovers the first record of any well-shaped response unchanged,
      and reports a response listing no work as such. */
  lemma CheckResponseOfResponse(homeworks: seq<Value>, date: Value)
    ensures homeworks != [] ==> CheckResponse(ResponseOf(homeworks, date)) == Ok(homeworks[0])
    ensures homeworks == [] ==>
              CheckResponse(ResponseOf(homeworks, date)) == Err(PyError(ImportantException, NoHomeworks))
  {
    var members := ResponseOf(homeworks, date).members;
    assert members[0].key == "homeworks";
    assert HasKey(members, "homeworks");
    assert LastIndexOf(members, "homeworks") == 0;
  }

  // ---------------------------------------------------------------------------
  // parse_status

  /** The message announcing the status of one homework record. The name is checked
      before the status, both before the status table; the two missing-field
      exceptions are raised bare and so carry empty texts. */
  function ParseStatus(homework: Value): (r: Result<string>)
    ensures homework.JDict? && !HasKey(homework.members, "homework_name") ==>
              r == Err(PyError(KeyError, ""))
    ensures homework.JDict? && HasKey(homework.members, "homework_name") && !HasKey(homework.members, "status") ==>
              r == Err(PyError(Exception, ""))
    ensures Contains(homework, "homework_name").Err? ==> r == Err(Contains(homework, "homework_name").error)
    ensures Contains(homework, "homework_name") == Ok(false) ==> r == Err(PyError(KeyError, ""))
    ensures Contains(homework, "homework_name") == Ok(true) && Contains(homework, "status") == Ok(false) ==>
              r == Err(PyError(Exception, ""))
    ensures !homework.JDict? && Contains(homework, "homework_name") == Ok(true) && Contains(homework, "status") == Ok(true) ==>
              r == Err(PyError(TypeError, if homework.JList? then ListIndicesNotStr else StringIndicesNotStr))
    ensures r.Ok? ==> homework.JDict? && IsStatusMessage(r.value)
    ensures homework.JDict? && HasKey(homework.members, "homework_name") && HasKey(homework.members, "status") ==>
              var name := Lookup(homework.members, "homework_name").value;
              var status := Lookup(homework.members, "status").value;
              if status.JList? || status.JDict? then r == Err(PyError(TypeError, Unhashable(status)))
              else if status.JStr? && status.s in HomeworkStatuses then
                r == Ok(StatusMessage(Str(name), HomeworkStatuses[status.s]))
              else r == Err(PyError(ImportantException, NewStatusPrefix + Str(status)))
    ensures r.Err? ==> UnlikeStatusMessage(r.error.text)
  {
    match Contains(homework, "homework_name")
    case Err(e) => Err(e)
    case Ok(hasName) =>
      if !hasName then Err(PyError(KeyError, ""))
      else match Contains(homework, "status")
        case Err(e) => Err(e)
        case Ok(hasStatus) =>
          if !hasStatus then Err(PyError(Exception, ""))
          else match GetItem(homework, "homework_name")
            case Err(e) => Err(e)
            case Ok(name) =>
              match GetItem(homework, "status")
              case Err(e) => Err(e)
              case Ok(status) =>
                match InTable(HomeworkStatuses, status)
                case Err(e) => Err(e)
                case Ok(known) =>
                  if !known then Err(PyError(ImportantException, NewStatusPrefix + Str(status)))
                  else Ok(StatusMessage(Str(name), HomeworkStatuses[status.s]))
  }

  /** A homework record as the API sends it. */
  function RecordOf(name: string, status: string): Value {
    JDict([Member("homework_name", JStr(name)), Member("status", JStr(status))])
  }

  /** A record with a recognised status is announced with its verdict; any other status
      is reported, by its own text, as a new status. */
  lemma ParseStatusOfRecord(name: string, status: string)
    ensures status in HomeworkStatuses ==>
              ParseStatus(RecordOf(name, status)) == Ok(StatusMessage(name, HomeworkStatuses[status]))
    ensures status !in HomeworkStatuses ==>
              ParseStatus(RecordOf(name, status)) == Err(PyError(ImportantException, NewStatusPrefix + status))
  {
    var members := RecordOf(name, status).members;
    assert members[0].key == "homework_name" && members[1].key == "status";
    assert HasKey(members, "homework_name") && HasKey(members, "status");
    assert LastIndexOf(members, "homework_name") == 0;
    assert LastIndexOf(members, "status") == 1;
  }

  /** A record whose name is missing fails on the name, whether or not it has a status. */
  lemma MissingNameWins(status: Option<string>)
    ensures var record := if status.Some? then JDict([Member("status", JStr(status.value))]) else JDict([]);
            ParseStatus(record) == Err(PyError(KeyError, ""))
  {
    if status.Some? {
      var record := JDict([Member("status", JStr(status.value))]);
      assert !HasKey(record.members, "homework_name") by {
        assert record.members[0].key != "homework_name";
      }
    }
  }

  /** No status message is empty. */
  lemma StatusMessageNonEmpty(name: string, verdict: string)
    ensures |StatusMessage(name, verdict)| > |StatusChangedPrefix|
    ensures IsStatusMessage(StatusMessage(name, verdict))
  {
    var m := StatusMessage(name, verdict);
    assert m[..|StatusChangedPrefix|] == StatusChangedPrefix;
  }

  /** A status message determines both the work's name and its status: different
      recognised statuses never yield the same message, for any names. */
  lemma StatusMessageInjective(name1: string, status1: string, name2: string, status2: string)
    requires status1 in HomeworkStatuses && status2 in HomeworkStatuses
    requires StatusMessage(name1, HomeworkStatuses[status1]) == StatusMessage(name2, HomeworkStatuses[status2])
    ensures status1 == status2 && name1 == name2
  {
    var v1, v2 := HomeworkStatuses[status1], HomeworkStatuses[status2];
    var m := StatusMessage(name1, v1);
    VerdictEnding(status1);
    VerdictEnding(status2);
    StatusMessageParts(name1, v1);
    StatusMessageParts(name2, v2);
    assert m[|m| - 2..] == v1[|v1| - 2..];
    assert m[|m| - 2..] == v2[|v2| - 2..];
    assert status1 == status2 by {
      DistinctEndings(status1, status2);
    }
    var p := |StatusChangedPrefix|;
    assert |name1| == |name2|;
    assert name1 == m[p..p + |name1|] == name2;
  }

  /** Where the name and the verdict sit inside a status message. */
  lemma StatusMessageParts(name: string, verdict: string)
    ensures var m := StatusMessage(name, verdict);
            var p := |StatusChangedPrefix|;
            && |m| == p + |name| + |StatusChangedInfix| + |verdict|
            && m[p..p + |name|] == name
            && m[|m| - |verdict|..] == verdict
  {
    var m := StatusMessage(name, verdict);
    var p := |StatusChangedPrefix|;
    assert m == StatusChangedPrefix + name + StatusChangedInfix + verdict;
    assert m[p..p + |name|] == name;
  }

  /** Every verdict is at least two characters long. */
  lemma VerdictEnding(status: string)
    requires status in HomeworkStatuses
    ensures |HomeworkStatuses[status]| >= 2
  {
  }

  /** The verdicts differ in their last two characters. */
  lemma DistinctEndings(status1: string, status2: string)
    requires status1 in HomeworkStatuses && status2 in HomeworkStatuses
    requires var v1, v2 := HomeworkStatuses[status1], HomeworkStatuses[status2];
             |v1| >= 2 && |v2| >= 2 && v1[|v1| - 2..] == v2[|v2| - 2..]
    ensures status1 == status2
  {
  }

  // ---------------------------------------------------------------------------
  // check_tokens

  /** `os.getenv` of a variable: its text, or nothing when it is not set. */
  function EnvValue(v: Option<string>): Value {
    if v.Some? then JStr(v.value) else JNone
  }

  /** The startup guard: all three configuration values are set and non-empty. */
  function CheckTokens(practicumToken: Option<string>, telegramToken: Option<string>, chatId: Option<string>): (ok: bool)
    ensures ok <==> (practicumToken.Some? && practicumToken.value != "") &&
                    (telegramToken.Some? && telegramToken.value != "") &&
                    (chatId.Some? && chatId.value != "")
  {
    var values := [EnvValue(practicumToken), EnvValue(telegramToken), EnvValue(chatId)];
    assert Truthy(values[0]) && Truthy(values[1]) && Truthy(values[2]) ==> forall i | 0 <= i < 3 :: Truthy(values[i]);
    All(values)
  }
}

=== FILE: py_value.dfy ===
/** Python values as `json.loads` hands them to the bot (floats excepted), and the few
    built-in operations the bot applies to them: truthiness, `all`, the `in` operator,
    subscription with a string key or with `0`, `dict.get`, `str` and `repr`.

    A built-in failure is a `PyError`: the exception class and the text that `str()`
    of the raised exception yields, which is what the bot forwards to the chat. */
module PyValue {

  datatype Option<+T> = None | Some(value: T) {
    function GetOr(default: T): T {
      match this
      case Some(v) => v
      case None => default
    }
  }

  /** The exception classes that can reach the bot's main loop. `ImportantException`
      is the bot's own subclass of `Exception`. */
  datatype ExcClass =
    | ImportantException
    | Exception
    | TypeError
    | KeyError
    | IndexError
    | AttributeError

  /** A raised exception; `text` is `str(exception)`, empty for a bare `raise KeyError`. */
  datatype PyError = PyError(cls: ExcClass, text: string)

  /** CPython's own exception texts are English: they start with an ASCII character. */
  predicate AsciiLed(text: string) {
    text != [] && text[0] as int < 0x80
  }

  /** Either a value or the exception raised while computing it. */
  datatype Result<+T> = Ok(value: T) | Err(error: PyError)

  /** A decoded JSON document. A JSON object keeps its members in document order,
      duplicates included; `Lookup` gives them the meaning `json.loads` does. */
  datatype Value =
    | JNone
    | JBool(b: bool)
    | JInt(i: int)
    | JStr(s: string)
    | JList(items: seq<Value>)
    | JDict(members: seq<Member>)

  datatype Member = Member(key: string, value: Value)

  /** `type(v).__name__` */
  function TypeName(v: Value): string {
    match v
    case JNone => "NoneType"
    case JBool(_) => "bool"
    case JInt(_) => "int"
    case JStr(_) => "str"
    case JList(_) => "list"
    case JDict(_) => "dict"
  }

  /** `bool(v)`: `None`, `False`, `0` and empty containers are false. */
  predicate Truthy(v: Value) {
    match v
    case JNone => false
    case JBool(b) => b
    case JInt(i) => i != 0
    case JStr(s) => s != ""
    case JList(items) => items != []
    case JDict(members) => members != []
  }

  /** `all(values)`: true iff no element is false; stops at the first false one. */
  function All(values: seq<Value>): (r: bool)
    ensures r <==> forall i | 0 <= i < |values| :: Truthy(values[i])
  {
    if values == [] then true
    else if !Truthy(values[0]) then false
    else All(values[1..])
  }

  // ---------------------------------------------------------------------------
  // Dictionaries built by json.loads

  predicate HasKey(members: seq<Member>, k: string) {
    exists i | 0 <= i < |members| :: members[i].key == k
  }

  /** Position of the last member with key `k`: the one whose value `json.loads` keeps. */
  function LastIndexOf(members: seq<Member>, k: string): (j: nat)
    requires HasKey(members, k)
    ensures j < |members| && members[j].key == k
    ensures forall i | j < i < |members| :: members[i].key != k
  {
    var n := |members| - 1;
    if members[n].key == k then n
    else
      assert HasKey(members[..n], k) by {
        var i :| 0 <= i < |members| && members[i].key == k;
        assert members[..n][i].key == k;
      }
      LastIndexOf(members[..n], k)
  }

  /** `d[k]` if `k in d`, with `d` the dictionary `json.loads` makes of `members`. */
  function Lookup(members: seq<Member>, k: string): (r: Option<Value>)
    ensures r.None? <==> !HasKey(members, k)
  {
    if HasKey(members, k) then Some(members[LastIndexOf(members, k)].value) else None
  }

  // ---------------------------------------------------------------------------
  // Operators of the Python data model

  /** `k in container` for a string `k`: key membership for a dict, element equality
      for a list, substring for a str; other types are not containers. */
  function Contains(container: Value, k: string): (r: Result<bool>)
    ensures container.JDict? ==> r == Ok(HasKey(container.members, k))
    ensures container.JList? ==> r == Ok(JStr(k) in container.items)
    ensures container.JStr? ==> r == Ok(IsSubstring(k, container.s))
    ensures r.Err? <==> container.JNone? || container.JBool? || container.JInt?
    ensures r.Err? ==> r.error == PyError(TypeError, NotIterable(container)) && AsciiLed(r.error.text)
  {
    match container
    case JDict(members) => Ok(HasKey(members, k))
    case JList(items) => Ok(JStr(k) in items)
    case JStr(s) => Ok(IsSubstring(k, s))
    case _ => Err(PyError(TypeError, NotIterable(container)))
  }

  function NotIterable(v: Value): string {
    "argument of type '" + TypeName(v) + "' is not iterable"
  }

  /** `t` occurs in `s` at some position (the empty string occurs everywhere). */
  predicate IsSubstring(t: string, s: string) {
    t <= s || (s != [] && IsSubstring(t, s[1..]))
  }

  /** `container[k]` for a string `k`. */
  function GetItem(container: Value, k: string): (r: Result<Value>)
    ensures container.JDict? && HasKey(container.members, k) ==> r == Ok(container.members[LastIndexOf(container.members, k)].value)
    ensures r.Ok? <==> container.JDict? && HasKey(container.members, k)
    ensures r.Err? ==> (r.error.cls == KeyError <==> container.JDict?)
    ensures r.Err? && !container.JDict? ==> r.error.cls == TypeError
    ensures container.JList? ==> r == Err(PyError(TypeError, ListIndicesNotStr))
    ensures container.JStr? ==> r == Err(PyError(TypeError, StringIndicesNotStr))
    ensures container.JNone? || container.JBool? || container.JInt? ==> r == Err(PyError(TypeError, NotSubscriptable(container)))
    ensures r.Err? ==> AsciiLed(r.error.text)
  {
    match container
    case JDict(members) =>
      (match Lookup(members, k)
       case Some(v) => Ok(v)
       case None => Err(PyError(KeyError, Repr(JStr(k)))))
    case JList(_) => Err(PyError(TypeError, ListIndicesNotStr))
    case JStr(_) => Err(PyError(TypeError, StringIndicesNotStr))
    case _ => Err(PyError(TypeError, NotSubscriptable(container)))
  }

  /** What subscripting a list or a str with a string raises. */
  const ListIndicesNotStr := "list indices must be integers" + " or slices, not str"
  const StringIndicesNotStr := "string indices must be integers"

  /** `container[0]`. A JSON object's keys are strings, so `0` is never one of them. */
  function GetFirst(container: Value): (r: Result<Value>)
    ensures r.Err? && r.error.cls == IndexError <==> container == JList([]) || container == JStr("")
    ensures container.JList? && container.items != [] ==> r == Ok(container.items[0])
    ensures container.JStr? && container.s != "" ==> r == Ok(JStr(container.s[..1]))
    ensures r.Ok? ==> (container.JList? || container.JStr?)
    ensures container.JDict? ==> r == Err(PyError(KeyError, "0"))
    ensures container.JNone? || container.JBool? || container.JInt? ==> r == Err(PyError(TypeError, NotSubscriptable(container)))
    ensures r.Err? ==> AsciiLed(r.error.text)
  {
    match container
    case JList(items) =>
      if items == [] then Err(PyError(IndexError, "list index out of range")) else Ok(items[0])
    case JStr(s) =>
      if s == "" then Err(PyError(IndexError, "string index out of range")) else Ok(JStr(s[..1]))
    case JDict(_) => Err(PyError(KeyError, "0"))
    case _ => Err(PyError(TypeError, NotSubscriptable(container)))
  }

  function NotSubscriptable(v: Value): string {
    "'" + TypeName(v) + "' object is not subscriptable"
  }

  /** `v.get(k)`: the value under `k`, `None` when absent; only a dict has `get`. */
  function DictGet(v: Value, k: string): (r: Result<Value>)
    ensures r.Ok? <==> v.JDict?
    ensures v.JDict? ==> r.value == Lookup(v.members, k).GetOr(JNone)
    ensures r.Err? ==> r.error == PyError(AttributeError, "'" + TypeName(v) + "' object has no attribute 'get'")
    ensures r.Err? ==> AsciiLed(r.error.text)
  {
    match v
    case JDict(members) => Ok(Lookup(members, k).GetOr(JNone))
    case _ => Err(PyError(AttributeError, "'" + TypeName(v) + "' object has no attribute 'get'"))
  }

  /** `key in table` for a dict whose keys are all strings: a list or dict key is
      unhashable, any other non-string key is simply absent. */
  function InTable(table: map<string, string>, key: Value): (r: Result<bool>)
    ensures r == Ok(true) <==> key.JStr? && key.s in table
    ensures r.Err? <==> key.JList? || key.JDict?
    ensures r.Err? ==> r.error == PyError(TypeError, Unhashable(key)) && AsciiLed(r.error.text)
  {
    match key
    case JStr(s) => Ok(s in table)
    case JList(_) | JDict(_) => Err(PyError(TypeError, Unhashable(key)))
    case _ => Ok(false)
  }

  function Unhashable(v: Value): string {
    "unhashable type: '" + TypeName(v) + "'"
  }

  // ---------------------------------------------------------------------------
  // str() and repr()

  /** `str(v)`: a string is itself, anything else is its `repr`. */
  function Str(v: Value): (r: string)
    ensures v.JStr? ==> r == v.s
    ensures v.JNone? ==> r == "None"
    ensures v.JBool? ==> r == (if v.b then "True" else "False")
    ensures v.JInt? ==> r == IntToDecimal(v.i)
    ensures v.JList? ==> |r| >= 2 && r[0] == '[' && r[|r| - 1] == ']'
    ensures v.JDict? ==> |r| >= 2 && r[0] == '{' && r[|r| - 1] == '}'
  {
    if v.JStr? then v.s else Repr(v)
  }

  /** `repr(v)`: the Python literal that denotes `v`. */
  function Repr(v: Value): (r: string)
    ensures |r| >= 2 || v.JInt?
    ensures v.JStr? ==> r[0] == r[|r| - 1] && r[0] == (if '\'' in v.s && '"' !in v.s then '"' else '\'')
    ensures v.JList? ==> r[0] == '[' && r[|r| - 1] == ']'
    ensures v.JDict? ==> r[0] == '{' && r[|r| - 1] == '}'
    decreases v, 2
  {
    match v
    case JNone => "None"
    case JBool(b) => if b then "True" else "False"
    case JInt(i) => IntToDecimal(i)
    case JStr(s) => ReprStr(s)
    case JList(items) => "[" + Join(ReprItems(v, 0), ", ") + "]"
    case JDict(members) => "{" + Join(ReprEntries(v, 0), ", ") + "}"
  }

  function ReprItems(v: Value, i: nat): seq<string>
    requires v.JList? && i <= |v.items|
    decreases v, 1, |v.items| - i
  {
    if i == |v.items| then [] else [Repr(v.items[i])] + ReprItems(v, i + 1)
  }

  /** The entries of a dict in insertion order: a duplicated key keeps the place of its
      first occurrence and the value of its last. */
  function ReprEntries(v: Value, i: nat): seq<string>
    requires v.JDict? && i <= |v.members|
    decreases v, 1, |v.members| - i
  {
    if i == |v.members| then []
    else
      var k := v.members[i].key;
      if HasKey(v.members[..i], k) then ReprEntries(v, i + 1)
      else
        var j := LastIndexOf(v.members, k);
        [ReprStr(k) + ": " + Repr(v.members[j].value)] + ReprEntries(v, i + 1)
  }

  /** Position `j` holds the first occurrence of its key. */
  predicate FirstOccurrence(members: seq<Member>, j: int) {
    0 <= j < |members| && !HasKey(members[..j], members[j].key)
  }

  /** Every position from `i` on that holds the first occurrence of its key, in
      increasing order: the order in which a Python dict keeps its keys. */
  function FirstOccurrences(members: seq<Member>, i: nat): (ps: seq<nat>)
    requires i <= |members|
    ensures forall k | 0 <= k < |ps| :: i <= ps[k] && FirstOccurrence(members, ps[k])
    ensures forall k, l | 0 <= k < l < |ps| :: ps[k] < ps[l]
    ensures forall j | i <= j < |members| && FirstOccurrence(members, j) :: j in ps
    decreases |members| - i
  {
    if i == |members| then []
    else if FirstOccurrence(members, i) then [i] + FirstOccurrences(members, i + 1)
    else FirstOccurrences(members, i + 1)
  }

  /** The first occurrences name each key of the dict exactly once. */
  lemma FirstOccurrencesAreTheKeys(members: seq<Member>)
    ensures var ps := FirstOccurrences(members, 0);
            forall k, l | 0 <= k < l < |ps| :: members[ps[k]].key != members[ps[l]].key
    ensures forall j | 0 <= j < |members| :: Listed(members, FirstOccurrences(members, 0), members[j].key)
  {
    var ps := FirstOccurrences(members, 0);
    forall k, l | 0 <= k < l < |ps|
      ensures members[ps[k]].key != members[ps[l]].key
    {
      assert members[..ps[l]][ps[k]] == members[ps[k]];
    }
    forall j | 0 <= j < |members|
      ensures Listed(members, ps, members[j].key)
    {
      var f := FirstOccurrenceOf(members, j);
      assert f in ps;
      var k :| 0 <= k < |ps| && ps[k] == f;
      assert members[ps[k]].key == members[j].key;
    }
  }

  /** Some position of `ps` holds `key`. */
  predicate Listed(members: seq<Member>, ps: seq<nat>, key: string) {
    exists k | 0 <= k < |ps| :: ps[k] < |members| && members[ps[k]].key == key
  }

  /** Every key has a first occurrence, at or before any of its positions. */
  lemma {:induction false} FirstOccurrenceOf(members: seq<Member>, j: nat) returns (f: nat)
    requires j < |members|
    ensures f <= j && FirstOccurrence(members, f) && members[f].key == members[j].key
    decreases j
  {
    if FirstOccurrence(members, j) {
      f := j;
    } else {
      var i :| 0 <= i < j && members[..j][i].key == members[j].key;
      f := FirstOccurrenceOf(members, i);
    }
  }

  /** `repr` of a list: the `repr` of each element, in order, joined by `, ` inside
      brackets; `str` of a list is its `repr`. */
  lemma ReprList(items: seq<Value>)
    ensures Repr(JList(items)) == "[" + Join(seq(|items|, k requires 0 <= k < |items| => Repr(items[k])), ", ") + "]"
    ensures Str(JList(items)) == Repr(JList(items))
  {
    ReprItemsInOrder(JList(items), 0);
    assert ReprItems(JList(items), 0) == seq(|items|, k requires 0 <= k < |items| => Repr(items[k]));
  }

  lemma {:induction false} ReprItemsInOrder(v: Value, i: nat)
    requires v.JList? && i <= |v.items|
    ensures ReprItems(v, i) == seq(|v.items| - i, k requires 0 <= k < |v.items| - i => Repr(v.items[i + k]))
    decreases |v.items| - i
  {
    if i < |v.items| {
      ReprItemsInOrder(v, i + 1);
      assert ReprItems(v, i) == [Repr(v.items[i])] + ReprItems(v, i + 1);
      PrependItem(v.items, i);
    }
  }

  lemma PrependItem(items: seq<Value>, i: nat)
    requires i < |items|
    ensures seq(|items| - i, k requires 0 <= k < |items| - i => Repr(items[i + k])) ==
              [Repr(items[i])] + seq(|items| - (i + 1), k requires 0 <= k < |items| - (i + 1) => Repr(items[i + 1 + k]))
  {
  }

  /** The text `repr` gives the key at position `p`: `key: value`, with the value the
      dict keeps for that key. */
  function EntryText(members: seq<Member>, p: nat): string
    requires p < |members|
  {
    Repr(JStr(members[p].key)) + ": " + Repr(Lookup(members, members[p].key).GetOr(JNone))
  }

  /** `repr` of a dict: one `key: value` entry per distinct key, in the order of the
      key's first occurrence and with the value of its last, joined by `, ` inside
      braces; `str` of a dict is its `repr`. */
  lemma ReprDict(members: seq<Member>)
    ensures var ps := FirstOccurrences(members, 0);
            Repr(JDict(members)) ==
              "{" + Join(seq(|ps|, k requires 0 <= k < |ps| => EntryText(members, ps[k])), ", ") + "}"
    ensures Str(JDict(members)) == Repr(JDict(members))
  {
    ReprEntriesInOrder(JDict(members), 0);
  }

  lemma {:induction false} ReprEntriesInOrder(v: Value, i: nat)
    requires v.JDict? && i <= |v.members|
    ensures var ps := FirstOccurrences(v.members, i);
            ReprEntries(v, i) == seq(|ps|, k requires 0 <= k < |ps| => EntryText(v.members, ps[k]))
    decreases |v.members| - i
  {
    if i < |v.members| {
      var ms := v.members;
      ReprEntriesInOrder(v, i + 1);
      var rest := FirstOccurrences(ms, i + 1);
      if FirstOccurrence(ms, i) {
        assert ReprEntries(v, i) == [EntryText(ms, i)] + ReprEntries(v, i + 1);
        PrependEntry(ms, i, rest);
      } else {
        assert ReprEntries(v, i) == ReprEntries(v, i + 1);
      }
    }
  }

  lemma PrependEntry(ms: seq<Member>, i: nat, rest: seq<nat>)
    requires i < |ms| && forall k | 0 <= k < |rest| :: rest[k] < |ms|
    ensures var ps := [i] + rest;
            seq(|ps|, k requires 0 <= k < |ps| => EntryText(ms, ps[k])) ==
              [EntryText(ms, i)] + seq(|rest|, k requires 0 <= k < |rest| => EntryText(ms, rest[k]))
  {
  }

  function Join(parts: seq<string>, sep: string): string {
    if parts == [] then ""
    else if |parts| == 1 then parts[0]
    else parts[0] + sep + Join(parts[1..], sep)
  }

  /** `repr` of a str: single quotes unless the text holds a single quote and no double
      quote; the chosen quote, the backslash and non-printable characters are escaped. */
  function ReprStr(s: string): string {
    var quote := if '\'' in s && '"' !in s then '"' else '\'';
    [quote] + EscapeAll(s, quote) + [quote]
  }

  /** A character that needs no escaping in any repr: printable ASCII other than the
      single quote and the backslash. */
  predicate PlainAscii(c: char) {
    ' ' <= c <= '~' && c != '\'' && c != '\\'
  }

  /** A string of plain ASCII characters is rendered between single quotes, unchanged. */
  lemma ReprPlainString(s: string)
    requires forall i | 0 <= i < |s| :: PlainAscii(s[i])
    ensures Repr(JStr(s)) == "'" + s + "'"
  {
    assert forall i | 0 <= i < |s| :: s[i] != '\'';
    EscapePlain(s, '\'');
  }

  lemma {:induction false} EscapePlain(s: string, quote: char)
    requires quote == '\'' || quote == '"'
    requires forall i | 0 <= i < |s| :: PlainAscii(s[i]) && s[i] != quote
    ensures EscapeAll(s, quote) == s
  {
    if s != [] {
      assert PlainAscii(s[0]);
      EscapePlain(s[1..], quote);
      assert s == [s[0]] + s[1..];
    }
  }

  function EscapeAll(s: string, quote: char): string {
    if s == [] then "" else EscapeChar(s[0], quote) + EscapeAll(s[1..], quote)
  }

  function EscapeChar(c: char, quote: char): string {
    var n := c as int;
    if c == quote || c == '\\' then ['\\', c]
    else if c == '\t' then "\\t"
    else if c == '\n' then "\\n"
    else if c == '\r' then "\\r"
    else if Unprintable(c) then "\\x" + [HexDigit(n / 16), HexDigit(n % 16)]
    else [c]
  }

  /** The characters up to U+00FF that `str.isprintable` rejects: the C0 and C1
      controls, DEL, the no-break space and the soft hyphen. */
  predicate Unprintable(c: char) {
    var n := c as int;
    n < 0x20 || n == 0x7f || (0x80 <= n <= 0xa0) || n == 0xad
  }

  /** Reads the body of a Python string literal: `\\`, `\'`, `\"`, `\t`, `\n`, `\r` and
      `\xhh` each stand for one character; any other character stands for itself. */
  function Unescape(t: string): string
    decreases |t|
  {
    if t == [] then ""
    else if t[0] != '\\' || |t| < 2 then [t[0]] + Unescape(t[1..])
    else if t[1] == 't' then "\t" + Unescape(t[2..])
    else if t[1] == 'n' then "\n" + Unescape(t[2..])
    else if t[1] == 'r' then "\r" + Unescape(t[2..])
    else if t[1] == '\\' || t[1] == '\'' || t[1] == '"' then [t[1]] + Unescape(t[2..])
    else if t[1] == 'x' && |t| >= 4 && IsHex(t[2]) && IsHex(t[3]) then
      [(16 * HexValue(t[2]) + HexValue(t[3])) as char] + Unescape(t[4..])
    else [t[0]] + Unescape(t[1..])
  }

  predicate IsHex(c: char) {
    '0' <= c <= '9' || 'a' <= c <= 'f'
  }

  function HexValue(c: char): (d: nat)
    requires IsHex(c)
    ensures d < 16
  {
    if c <= '9' then c as int - '0' as int else c as int - 'a' as int + 10
  }

  /** The body of a literal closed by `quote`: a backslash always escapes the character
      after it, and no other occurrence of `quote` ends the literal early. */
  predicate Closed(t: string, quote: char)
    decreases |t|
  {
    if t == [] then true
    else if t[0] == '\\' then |t| >= 2 && Closed(t[2..], quote)
    else t[0] != quote && Closed(t[1..], quote)
  }

  /** The body of `repr` of a str is a closed literal body, holds only printable
      characters, and reads back as the string. */
  lemma {:induction false} EscapeAllReadsBack(s: string, quote: char)
    requires quote == '\'' || quote == '"'
    ensures Unescape(EscapeAll(s, quote)) == s
    ensures Closed(EscapeAll(s, quote), quote)
    ensures forall i | 0 <= i < |EscapeAll(s, quote)| :: !Unprintable(EscapeAll(s, quote)[i])
  {
    if s != [] {
      EscapeAllReadsBack(s[1..], quote);
      EscapeCharReadsBack(s[0], quote, EscapeAll(s[1..], quote));
      assert s == [s[0]] + s[1..];
    }
  }

  lemma EscapeCharReadsBack(c: char, quote: char, rest: string)
    requires quote == '\'' || quote == '"'
    ensures Unescape(EscapeChar(c, quote) + rest) == [c] + Unescape(rest)
    ensures Closed(rest, quote) ==> Closed(EscapeChar(c, quote) + rest, quote)
    ensures forall i | 0 <= i < |EscapeChar(c, quote)| :: !Unprintable(EscapeChar(c, quote)[i])
  {
    var n := c as int;
    if c == quote || c == '\\' {
      PairReadsBack(c, c, rest);
    } else if c == '\t' {
      PairReadsBack('t', c, rest);
    } else if c == '\n' {
      PairReadsBack('n', c, rest);
    } else if c == '\r' {
      PairReadsBack('r', c, rest);
    } else if Unprintable(c) {
      HexReadsBack(c, quote, rest);
    } else {
      var t := EscapeChar(c, quote) + rest;
      assert t[1..] == rest;
    }
  }

  /** A two-character escape `\\e` reads back as `c`. */
  lemma PairReadsBack(e: char, c: char, rest: string)
    requires (e == c && (c == '\\' || c == '\'' || c == '"')) || (e == 't' && c == '\t') || (e == 'n' && c == '\n') || (e == 'r' && c == '\r')
    ensures Unescape(['\\', e] + rest) == [c] + Unescape(rest)
    ensures Closed(['\\', e] + rest, c) == Closed(rest, c)
  {
    var t := ['\\', e] + rest;
    assert t[2..] == rest;
  }

  /** The escape `\\xhh` of an unprintable character reads back as that character. */
  lemma HexReadsBack(c: char, quote: char, rest: string)
    requires Unprintable(c) && (quote == '\'' || quote == '"')
    ensures var n := c as int;
            Unescape("\\x" + [HexDigit(n / 16), HexDigit(n % 16)] + rest) == [c] + Unescape(rest)
    ensures var n := c as int;
            Closed(rest, quote) ==> Closed("\\x" + [HexDigit(n / 16), HexDigit(n % 16)] + rest, quote)
  {
    var n := c as int;
    var t := "\\x" + [HexDigit(n / 16), HexDigit(n % 16)] + rest;
    HexDigitValue(n / 16);
    HexDigitValue(n % 16);
    assert t[2..] == [HexDigit(n / 16), HexDigit(n % 16)] + rest;
    assert t[4..] == rest;
    assert (16 * (n / 16) + n % 16) as char == c;
  }

  lemma HexDigitValue(d: int)
    requires 0 <= d < 16
    ensures IsHex(HexDigit(d)) && HexValue(HexDigit(d)) == d
    ensures !Unprintable(HexDigit(d))
  {
    var digits := "0123456789abcdef";
    assert digits[d] == HexDigit(d);
  }

  /** `repr` of a str is a literal: opened and closed by the quote Python picks, with a
      body of printable characters that reads back as the string. */
  lemma ReprStringReadsBack(s: string)
    ensures var quote := if '\'' in s && '"' !in s then '"' else '\'';
            var r := Repr(JStr(s));
            && |r| >= 2 && r[0] == quote && r[|r| - 1] == quote
            && Unescape(r[1..|r| - 1]) == s
            && Closed(r[1..|r| - 1], quote)
            && forall i | 0 <= i < |r| :: !Unprintable(r[i])
  {
    var quote := if '\'' in s && '"' !in s then '"' else '\'';
    EscapeAllReadsBack(s, quote);
    assert Repr(JStr(s))[1..|Repr(JStr(s))| - 1] == EscapeAll(s, quote);
  }

  function HexDigit(d: int): char
    requires 0 <= d < 16
  {
    "0123456789abcdef"[d]
  }

  // ---------------------------------------------------------------------------
  // Decimal rendering of integers

  function DigitChar(d: int): char
    requires 0 <= d < 10
  {
    "0123456789"[d]
  }

  predicate IsDigits(s: string) {
    forall i | 0 <= i < |s| :: '0' <= s[i] <= '9'
  }

  function NatToDecimal(n: nat): (s: string)
    ensures |s| > 0
    ensures IsDigits(s)
    ensures s[0] == '0' <==> n == 0
  {
    if n < 10 then [DigitChar(n)] else NatToDecimal(n / 10) + [DigitChar(n % 10)]
  }

  /** `str(i)` for an `int`: a minus sign for negatives, then the decimal digits. */
  function IntToDecimal(i: int): (s: string)
    ensures |s| > 0
    ensures s[0] == '-' <==> i < 0
    ensures i >= 0 ==> IsDigits(s) && DecimalValue(s) == i
    ensures i < 0 ==> IsDigits(s[1..]) && DecimalValue(s[1..]) == -i
    ensures s[0] == '0' ==> s == "0"
    ensures i < 0 ==> |s| >= 2 && s[1] != '0'
  {
    if i < 0 then
      DecimalRoundTrip(-i);
      assert ("-" + NatToDecimal(-i))[1..] == NatToDecimal(-i);
      "-" + NatToDecimal(-i)
    else
      DecimalRoundTrip(i);
      NatToDecimal(i)
  }

  /** The number a string of decimal digits denotes. */
  function DecimalValue(s: string): nat
    requires IsDigits(s)
  {
    if s == [] then 0 else 10 * DecimalValue(s[..|s| - 1]) + (s[|s| - 1] as int - '0' as int)
  }

  /** `NatToDecimal` is the decimal notation: reading its digits back gives `n`. */
  lemma {:induction false} DecimalRoundTrip(n: nat)
    ensures DecimalValue(NatToDecimal(n)) == n
  {
    if n >= 10 {
      var s := NatToDecimal(n);
      DecimalRoundTrip(n / 10);
      assert s[..|s| - 1] == NatToDecimal(n / 10);
    }
  }
}

=== FILE: supervisor.dfy ===
/** The bot's `main`: the startup guard and the endless poll loop, one iteration of
    which is the pure transition `Step`. The loop remembers the last status message and
    the last error text it sent, and the timestamp for the next request. */
module Supervisor {
  import opened PyValue
  import opened Homework

  const MissingTokens := "Отсутствует(ют) переменная(ые) окружения"

  /** The three configuration values read from the environment. */
  datatype Env = Env(practicumToken: Option<string>, telegramToken: Option<string>, chatId: Option<string>)

  /** The loop variables: the last status message sent, the last error text sent, and
      the value the next request derives its `from_date` from. */
  datatype State = State(currentStatus: string, messageError: string, timestamp: Value)

  /** Startup: without every token the bot raises its critical error and never enters
      the loop; otherwise the loop starts with nothing sent and the current time. */
  function Start(env: Env, now: int): (r: Result<State>)
    ensures r.Ok? <==> CheckTokens(env.practicumToken, env.telegramToken, env.chatId)
    ensures r.Err? ==> r.error == PyError(ImportantException, MissingTokens)
    ensures r.Ok? ==> r.value == State("", "", JInt(now))
  {
    if !CheckTokens(env.practicumToken, env.telegramToken, env.chatId) then
      Err(PyError(ImportantException, MissingTokens))
    else
      Ok(State("", "", JInt(now)))
  }

  /** What the `try` body of one iteration produces before the comparison: the new
      timestamp, if the assignment to it was reached, and the message or the exception. */
  datatype Cycle = Cycle(date: Option<Value>, outcome: Result<string>)

  /** Fetch, read `current_date`, validate, interpret. The timestamp is read from any
      dict body, before the body is validated. */
  function Poll(reply: Reply): (c: Cycle)
    ensures c.date.Some? <==> GetApiAnswer(reply).Ok? && GetApiAnswer(reply).value.JDict?
    ensures c.date.Some? ==> c.date.value == Lookup(GetApiAnswer(reply).value.members, "current_date").GetOr(JNone)
    ensures c.outcome.Ok? ==> IsStatusMessage(c.outcome.value)
    ensures c.outcome.Err? ==> UnlikeStatusMessage(c.outcome.error.text)
    ensures GetApiAnswer(reply).Err? ==> c.outcome == Err(PyError(ImportantException, ApiRequestFailed))
    ensures GetApiAnswer(reply).Ok? && !GetApiAnswer(reply).value.JDict? ==>
              c.outcome.Err? && c.outcome.error.cls == AttributeError
    ensures GetApiAnswer(reply).Ok? && GetApiAnswer(reply).value.JDict? ==>
              var checked := CheckResponse(GetApiAnswer(reply).value);
              && (checked.Err? ==> c.outcome == Err(checked.error))
              && (checked.Ok? ==> c.outcome == ParseStatus(checked.value))
  {
    match GetApiAnswer(reply)
    case Err(e) => Cycle(None, Err(e))
    case Ok(response) =>
      match DictGet(response, "current_date")
      case Err(e) => Cycle(None, Err(e))
      case Ok(date) =>
        var outcome :=
          match CheckResponse(response)
          case Err(e) => Err(e)
          case Ok(homework) => ParseStatus(homework);
        Cycle(Some(date), outcome)
  }

  datatype StepResult = StepResult(next: State, request: Value, sent: Option<string>)

  /** One iteration: request with the current timestamp, then send the message (or the
      error text) only if it differs from the last one of its kind, and remember it. */
  function Step(s: State, now: int, reply: Reply): (r: StepResult)
    ensures r.request == FromDate(s.timestamp, now)
    ensures r.next.timestamp == Poll(reply).date.GetOr(s.timestamp)
    ensures Poll(reply).outcome.Ok? ==>
              var message := Poll(reply).outcome.value;
              r.next.currentStatus == message && r.next.messageError == s.messageError &&
              (r.sent.Some? <==> message != s.currentStatus) && (r.sent.Some? ==> r.sent.value == message)
    ensures Poll(reply).outcome.Err? ==>
              var text := Poll(reply).outcome.error.text;
              r.next.messageError == text && r.next.currentStatus == s.currentStatus &&
              (r.sent.Some? <==> text != s.messageError) && (r.sent.Some? ==> r.sent.value == text)
  {
    var request := FromDate(s.timestamp, now);
    var cycle := Poll(reply);
    var timestamp := cycle.date.GetOr(s.timestamp);
    match cycle.outcome
    case Ok(message) =>
      var sent := if message != s.currentStatus then Some(message) else None;
      StepResult(State(message, s.messageError, timestamp), request, sent)
    case Err(e) =>
      var sent := if e.text != s.messageError then Some(e.text) else None;
      StepResult(State(s.currentStatus, e.text, timestamp), request, sent)
  }

  /** The clock reading and the server's reply for one iteration. */
  datatype Tick = Tick(now: int, reply: Reply)

  /** The final state, the `from_date` of every request, and every message sent. */
  datatype Trace = Trace(final: State, requests: seq<Value>, sent: seq<string>)

  function AsSeq(o: Option<string>): (r: seq<string>)
    ensures |r| <= 1
  {
    if o.Some? then [o.value] else []
  }

  /** One iteration, as a transition on a tick. */
  function Iterate(s: State, tick: Tick): (r: StepResult)
    ensures r.request == FromDate(s.timestamp, tick.now)
  {
    Step(s, tick.now, tick.reply)
  }

  /** A loop that applies `iterate` to each tick in turn, collecting the requests and the
      messages sent. */
  function RunWith(iterate: (State, Tick) -> StepResult, s: State, ticks: seq<Tick>): (t: Trace)
    ensures |t.requests| == |ticks|
    ensures |t.sent| <= |ticks|
    decreases |ticks|
  {
    if ticks == [] then Trace(s, [], [])
    else
      var r := iterate(s, ticks[0]);
      var rest := RunWith(iterate, r.next, ticks[1..]);
      Trace(rest.final, [r.request] + rest.requests, AsSeq(r.sent) + rest.sent)
  }

  /** The loop run over a finite sequence of iterations. */
  function Run(s: State, ticks: seq<Tick>): (t: Trace)
    ensures |t.requests| == |ticks|
    ensures |t.sent| <= |ticks|
    ensures ticks != [] ==> t.requests[0] == FromDate(s.timestamp, ticks[0].now)
  {
    RunWith(Iterate, s, ticks)
  }

  /** Running `a` and then `b` is running `a + b`, for any transition. */
  lemma {:induction false} RunWithAppend(iterate: (State, Tick) -> StepResult, s: State, a: seq<Tick>, b: seq<Tick>)
    ensures var first := RunWith(iterate, s, a);
            var second := RunWith(iterate, first.final, b);
            RunWith(iterate, s, a + b) == Trace(second.final, first.requests + second.requests, first.sent + second.sent)
    decreases |a|
  {
    if a == [] {
      assert a + b == b;
    } else {
      assert (a + b)[0] == a[0];
      assert (a + b)[1..] == a[1..] + b;
      RunWithAppend(iterate, iterate(s, a[0]).next, a[1..], b);
    }
  }

  /** Running `a` and then `b` is running `a + b`: each iteration starts from the state
      the previous one left and contributes its own request and messages. */
  lemma RunAppend(s: State, a: seq<Tick>, b: seq<Tick>)
    ensures var first := Run(s, a);
            var second := Run(first.final, b);
            Run(s, a + b) == Trace(second.final, first.requests + second.requests, first.sent + second.sent)
  {
    RunWithAppend(Iterate, s, a, b);
  }

  /** The first iteration of a non-empty run. */
  lemma RunUnfold(s: State, ticks: seq<Tick>)
    requires ticks != []
    ensures var r := Step(s, ticks[0].now, ticks[0].reply);
            var rest := Run(r.next, ticks[1..]);
            Run(s, ticks) == Trace(rest.final, [r.request] + rest.requests, AsSeq(r.sent) + rest.sent)
  {
  }

  /** A single iteration sends at most one message. */
  lemma RunOneTick(s: State, tick: Tick)
    ensures var r := Step(s, tick.now, tick.reply);
            Run(s, [tick]) == Trace(r.next, [r.request], AsSeq(r.sent))
  {
    assert [tick][1..] == [];
    RunUnfold(s, [tick]);
  }

  /** Each further iteration adds exactly one request and at most one message, the
      ones its own `Step` yields from the state the earlier iterations left. */
  lemma RunExtend(s: State, a: seq<Tick>, tick: Tick)
    ensures var before := Run(s, a);
            var r := Step(before.final, tick.now, tick.reply);
            Run(s, a + [tick]) == Trace(r.next, before.requests + [r.request], before.sent + AsSeq(r.sent))
    ensures |Run(s, a + [tick]).sent| <= |Run(s, a).sent| + 1
  {
    RunAppend(s, a, [tick]);
    RunOneTick(Run(s, a).final, tick);
  }

  // ---------------------------------------------------------------------------
  // De-duplication

  /** The same reply twice in a row: the second iteration sends nothing and changes
      nothing, whatever the clock says. */
  lemma RepeatedReplyIsSilent(s: State, now1: int, now2: int, reply: Reply)
    ensures var r1 := Step(s, now1, reply);
            var r2 := Step(r1.next, now2, reply);
            r2.sent.None? && r2.next == r1.next
  {
  }

  /** Two identical consecutive replies produce at most one notification. */
  lemma RepeatedReplyNotifiesAtMostOnce(s: State, now1: int, now2: int, reply: Reply)
    ensures |Run(s, [Tick(now1, reply), Tick(now2, reply)]).sent| <= 1
  {
    var ticks := [Tick(now1, reply), Tick(now2, reply)];
    var r1 := Step(s, now1, reply);
    RepeatedReplyIsSilent(s, now1, now2, reply);
    assert ticks[1..] == [Tick(now2, reply)];
    assert Run(r1.next, ticks[1..]).sent == [];
  }

  predicate NoRepeats(texts: seq<string>) {
    forall i | 0 <= i < |texts| - 1 :: texts[i] != texts[i + 1]
  }

  /** The last text sent, if any, is the one the state remembers for its kind. */
  predicate Remembers(s: State, last: Option<string>) {
    || last.None?
    || (IsStatusMessage(last.value) && last.value == s.currentStatus)
    || (!IsStatusMessage(last.value) && last.value == s.messageError)
  }

  /** Starting from a state that remembers the last text sent, no run ever sends the
      same text twice in a row, across status messages and error texts alike. */
  lemma {:induction false} RunNeverRepeats(s: State, ticks: seq<Tick>, last: Option<string>)
    requires Remembers(s, last)
    ensures NoRepeats(AsSeq(last) + Run(s, ticks).sent)
    decreases |ticks|
  {
    if ticks != [] {
      var r := Step(s, ticks[0].now, ticks[0].reply);
      var rest := Run(r.next, ticks[1..]);
      assert Run(s, ticks).sent == AsSeq(r.sent) + rest.sent;
      if r.sent.None? {
        RunNeverRepeats(r.next, ticks[1..], last);
        assert AsSeq(last) + Run(s, ticks).sent == AsSeq(last) + rest.sent;
      } else {
        var m := r.sent.value;
        if Poll(ticks[0].reply).outcome.Err? {
          UnlikeIsNotStatusMessage(m);
        }
        RunNeverRepeats(r.next, ticks[1..], Some(m));
        assert last.Some? ==> last.value != m;
        var all := AsSeq(last) + Run(s, ticks).sent;
        assert all == AsSeq(last) + ([m] + rest.sent);
        NoRepeatsCons(AsSeq(last), m, rest.sent);
      }
    }
  }

  lemma NoRepeatsCons(prefix: seq<string>, m: string, tail: seq<string>)
    requires |prefix| <= 1
    requires prefix != [] ==> prefix[0] != m
    requires NoRepeats([m] + tail)
    ensures NoRepeats(prefix + ([m] + tail))
  {
    var all := prefix + ([m] + tail);
    forall i | 0 <= i < |all| - 1
      ensures all[i] != all[i + 1]
    {
      if prefix != [] && i == 0 {
      } else if prefix != [] {
        assert all[i] == ([m] + tail)[i - 1] && all[i + 1] == ([m] + tail)[i];
      }
    }
  }

  /** From startup on, the bot never sends the same text twice in a row. */
  lemma NotificationsNeverRepeat(env: Env, now: int, ticks: seq<Tick>)
    requires Start(env, now).Ok?
    ensures NoRepeats(Run(Start(env, now).value, ticks).sent)
  {
    RunNeverRepeats(Start(env, now).value, ticks, None);
    assert AsSeq(None) + Run(Start(env, now).value, ticks).sent == Run(Start(env, now).value, ticks).sent;
  }

  // ---------------------------------------------------------------------------
  // The timestamp

  /** A decoded dict sets the next timestamp to its `current_date` (`None` when absent)
      before validation, so also when the validator or the interpreter then fails. */
  lemma TimestampTakenBeforeValidation(s: State, now: int, members: seq<Member>)
    ensures Step(s, now, Response(HttpOk, Parsed(JDict(members)))).next.timestamp ==
            Lookup(members, "current_date").GetOr(JNone)
  {
  }

  /** A failed request or a body that is not a dict leaves the timestamp alone. */
  lemma TimestampKeptWithoutDict(s: State, now: int, reply: Reply)
    requires GetApiAnswer(reply).Err? || !GetApiAnswer(reply).value.JDict?
    ensures Step(s, now, reply).next.timestamp == s.timestamp
  {
  }

  /** A response without `current_date` makes the following request start from the
      clock reading at that time. */
  lemma MissingDateFallsBackToNow(s: State, now: int, members: seq<Member>, later: int, reply: Reply)
    requires !HasKey(members, "current_date")
    ensures var s' := Step(s, now, Response(HttpOk, Parsed(JDict(members)))).next;
            Step(s', later, reply).request == JInt(later)
  {
  }

  // ---------------------------------------------------------------------------
  // Error reporting as the loop sees it

  /** The validator's not-a-dict error never reaches the chat: a body that is not a dict
      already fails when the loop calls `get` on it. */
  lemma NotADictNeverReported(reply: Reply)
    ensures Poll(reply).outcome != Err(PyError(TypeError, ResponseNotADict))
  {
    match GetApiAnswer(reply)
    case Err(_) =>
    case Ok(response) =>
      if response.JDict? {
        assert CheckResponse(response) != Err(PyError(TypeError, ResponseNotADict));
      }
  }

  /** A body that is not a dict is reported by the attribute error of `get`. */
  lemma NonDictBodyReportsMissingGet(v: Value)
    requires !v.JDict?
    ensures Poll(Response(HttpOk, Parsed(v))).outcome ==
            Err(PyError(AttributeError, "'" + TypeName(v) + "' object has no attribute 'get'"))
  {
  }

  /** An exception with an empty text is not sent while the remembered error text is
      still empty, as it is at startup. */
  lemma EmptyErrorTextIsSilent(s: State, now: int, reply: Reply)
    requires s.messageError == ""
    requires Poll(reply).outcome.Err? && Poll(reply).outcome.error.text == ""
    ensures Step(s, now, reply).sent.None?
  {
  }

  /** So a first record without a name is never announced at all. */
  lemma FirstNamelessRecordIsSilent(env: Env, now: int, status: string)
    requires Start(env, now).Ok?
    ensures var reply := Response(HttpOk, Parsed(ResponseOf([JDict([Member("status", JStr(status))])], JInt(now))));
            Step(Start(env, now).value, now, reply).sent.None?
  {
    var record := JDict([Member("status", JStr(status))]);
    var response := ResponseOf([record], JInt(now));
    CheckResponseOfResponse([record], JInt(now));
    MissingNameWins(Some(status));
    assert Poll(Response(HttpOk, Parsed(response))).outcome == Err(PyError(KeyError, ""));
  }

  // ---------------------------------------------------------------------------
  // Scenarios

  /** One reviewed homework: its message is sent and the next request uses the
      response's date. */
  lemma ReviewingScenario(env: Env, now: int, later: int)
    requires Start(env, now).Ok?
    ensures var reply := Response(HttpOk, Parsed(ResponseOf([RecordOf("hw1", "reviewing")], JInt(1000))));
            var r := Step(Start(env, now).value, now, reply);
            && r.sent == Some("Изменился статус проверки работы \"" + "hw1" + "\". " + "Работа взята на проверку ревьюером.")
            && Step(r.next, later, reply).request == JInt(1000)
  {
    var response := ResponseOf([RecordOf("hw1", "reviewing")], JInt(1000));
    var reply := Response(HttpOk, Parsed(response));
    var message := StatusMessage("hw1", HomeworkStatuses["reviewing"]);
    CheckResponseOfResponse([RecordOf("hw1", "reviewing")], JInt(1000));
    ParseStatusOfRecord("hw1", "reviewing");
    assert HasKey(response.members, "current_date") by {
      assert response.members[1].key == "current_date";
    }
    assert LastIndexOf(response.members, "current_date") == 1;
    assert Poll(reply) == Cycle(Some(JInt(1000)), Ok(message));
  }

  /** An empty homework list is reported once, as an error. */
  lemma EmptyListScenario(s: State, now: int)
    requires s.messageError != NoHomeworks
    ensures Step(s, now, Response(HttpOk, Parsed(ResponseOf([], JNone)))).sent == Some(NoHomeworks)
  {
    CheckResponseOfResponse([], JNone);
  }

  /** Two approvals of the same work in a row: exactly one notification. */
  lemma ApprovedTwiceScenario(env: Env, now1: int, now2: int, name: string)
    requires Start(env, now1).Ok?
    ensures var reply := Response(HttpOk, Parsed(ResponseOf([RecordOf(name, "approved")], JInt(now1))));
            |Run(Start(env, now1).value, [Tick(now1, reply), Tick(now2, reply)]).sent| == 1
  {
    var reply := Response(HttpOk, Parsed(ResponseOf([RecordOf(name, "approved")], JInt(now1))));
    var s := Start(env, now1).value;
    CheckResponseOfResponse([RecordOf(name, "approved")], JInt(now1));
    ParseStatusOfRecord(name, "approved");
    StatusMessageNonEmpty(name, HomeworkStatuses["approved"]);
    var r1 := Step(s, now1, reply);
    assert r1.sent.Some?;
    RepeatedReplyIsSilent(s, now1, now2, reply);
    var ticks := [Tick(now1, reply), Tick(now2, reply)];
    assert ticks[1..] == [Tick(now2, reply)];
    assert Run(r1.next, ticks[1..]).sent == [];
  }
}
